=== FILE: README.md ===
# Pokédex dashboard core in Dafny

This project models the data logic behind a Streamlit Pokédex dashboard. The
dashboard embeds every creature in two dimensions and scores how similar each
creature is to a selected one. It also resolves evolution lines from a CSV
table and formats a creature's page: abilities, types, title and type
defenses. The model keeps the logic that decides what is shown. The plotting,
HTML, CSS, file reading and the UMAP fit itself are not modelled.

Modules, one per file:

- `Results` (`results.dfy`): the `Result`/`Option` types. Python's
  exceptions and numpy's NaN become `Err(IndexError)`, `Err(ValueError(..))`,
  `Err(NotFound)` and `Err(NotANumber)`.
- `Seqs` (`seqs.dfy`): list comprehension with a condition (`Filter`),
  subsequences, first occurrences, and pandas' `unique()` (`Distinct`).
- `Strings` (`strings.dfy`): Python's `in` on strings (`Find`/`Contains`),
  `str.split` with its inverse `str.join`, `str(n)` and `str.zfill`.
- `Scaling` (`scaling.dfy`): min-max scaling of one column.
- `Dataset` (`dataset.dfy`): the creature rows, the choice of feature
  columns, and `get_pokedex_number`.
- `Similarity` (`similarity.dfy`): the normalised embedding, similarity
  scores, the sorted similarity table, and the pop-out colour labels.
- `Evolution` (`evolution.dfy`): the evolution-line scan and its three
  accessors.
- `Displays` (`displays.dfy`): ability parsing, type badges, the page
  title, and the weakness/resistance buckets.

Inputs that are parameters in the model:

- The raw UMAP output is the input of `NormalizeComponents`. The `coords`
  argument of `GetSimilarities` and `PokemonTable` is the embedding after that
  per-axis normalisation (`NormalizeComponents(umap).value`), which is what
  `get_df_with_umap` returns (src/utils.py:177-180).
- The Euclidean norm `np.linalg.norm` is the function parameter `dist`.
  Lemmas that need it assume the metric facts they use: non-negative, zero
  on equal points, and, for `Similarity.SimilarityFailsOnlyWhenCollapsed`,
  zero only on equal points.
- The evolution table is a `Table` value instead of `data/evolutions.csv`.

## Model

| member | source | states |
|---|---|---|
| Dataset.FeatureColumns | src/utils.py:31-33 | the kept columns are exactly the numeric, non-removed, complete ones, each as often as in the table and in table order |
| Seqs.FirstWhere | src/utils.py:215 | the index of the first element passing the test, and none exactly when no element passes; this is the row a mask selection followed by `.values[0]` reads |
| Dataset.PokedexNumber | src/utils.py:213-215 | an unknown name is an IndexError; otherwise the number of the first row with that name, and under unique names of every such row |
| Scaling.MinMaxScale | src/utils.py:46-51 | fails (NaN) exactly for a non-empty constant column; otherwise one value per entry, each in [0, 1] |
| Scaling.MinMaxScaleOrder | src/utils.py:46-51 | scaling preserves order in both directions and sends exactly the minimal entries to 0 and the maximal ones to 1 |
| Similarity.NormalizeComponents | src/utils.py:45-51 | the two axes are scaled independently, each exactly as a single column; fails exactly when an axis is constant |
| Similarity.NormalizedAxesOrder | src/utils.py:45-51 | normalisation keeps the order of the points along each axis |
| Similarity.NormalizedAxesExtremes | src/utils.py:45-51 | on each normalised axis, 0 marks exactly the minimal points and 1 exactly the maximal ones |
| Similarity.VectorizedDistance | src/utils.py:162-169 | without normalisation, the raw distances; with it, numpy's ValueError for an empty array, a failure exactly when the array is empty or all distances are equal, otherwise one value per point in [0, 1], with 0 exactly at the nearest points and 1 exactly at the farthest |
| Similarity.GetSimilarities | src/utils.py:172-189 | fails with NotFound exactly when no row has the name; otherwise one score per row, each in [0, 1] |
| Similarity.SimilaritiesFromReference | src/utils.py:183-187 | under unique names, each score is one minus the normalised distance to the named creature's point |
| Similarity.SimilarityOrder | src/utils.py:186-187 | a creature is at most as far from the reference as another exactly when it scores at least as high |
| Similarity.NearestScoresOne | src/utils.py:186-187 | a score is 1 exactly when no creature is nearer to the reference |
| Similarity.ReferenceScoresOne | src/utils.py:183-187 | for a metric distance the reference creature itself scores 1 |
| Similarity.SimilarityFailsOnlyWhenCollapsed | src/utils.py:164-167 | with the reference present, scoring fails exactly when every creature sits on the reference's point |
| Similarity.Insert | src/utils.py:209 | inserting into a list sorted by descending similarity keeps it sorted and adds exactly that row |
| Similarity.Project | src/utils.py:205-207 | one table row per creature, carrying that creature's number, name and types and its own similarity |
| Similarity.SortBySimilarity | src/utils.py:209 | the result is a permutation of the rows in non-increasing similarity |
| Similarity.PokemonTable | src/utils.py:192-210 | fails exactly when scoring fails; otherwise a permutation of the projected rows sorted by descending similarity |
| Similarity.TableStartsWithTopScore | src/utils.py:202-209 | for a metric distance the table keeps every row and its first row has similarity 1 |
| Similarity.ColorLabels | src/utils.py:93-148 | "type" labels each row with its first type; "pop-out" succeeds exactly when some row has the selected number; any other mode is the ValueError with the source's message |
| Similarity.PopOutPartition | src/utils.py:114-118 | in pop-out mode the name is that of the first row with the selected number; a row carries it exactly when it has the selected number, and every other row carries "Not " plus that name |
| Similarity.PopOutOfSelectedName | src/utils.py:114-118 | with unique names and numbers, highlighting a creature's own number labels exactly that creature with its name |
| Evolution.MatchingRows | src/utils.py:259-270 | a row is kept exactly when it is a table row and some cell's text contains the query |
| Evolution.MatchingRowsOrder | src/utils.py:259-270 | the kept rows are in table order, and each is kept once per occurrence in the table |
| Evolution.MatchingRowsStep | src/utils.py:262-270 | scanning one more row appends it exactly when it matches |
| Evolution.ScanCells | src/utils.py:264-270 | the inner loop, which stops at the first matching cell, reports a match exactly when some cell contains the query |
| Evolution.ScanRows | src/utils.py:259-270 | the nested loop with its early break collects exactly the matching rows, in order, each once |
| Evolution.MissingCellMatchesNan | src/utils.py:266 | a missing cell prints as "nan", so any query inside "nan" matches every row with a missing cell |
| Evolution.SubstringMatches | src/utils.py:266 | a query inside a longer cell value makes the row match, because the match is by substring |
| Evolution.MatchingRowsWidth | src/utils.py:272 | the kept rows have the table's width |
| Seqs.Distinct | src/utils.py:275 | `unique()`: no duplicates, exactly the input's values, in order of first occurrence |
| Evolution.EvolutionLine | src/utils.py:272-277 | one list per column, each without duplicates |
| Evolution.EvolutionLineValues | src/utils.py:272-277 | a value is listed for a column exactly when some matching row holds it there |
| Evolution.EvolutionLineOrder | src/utils.py:275 | each column lists its values in order of first appearance among the matching rows |
| Evolution.Unevolved | src/utils.py:279-281 | succeeds exactly when there is a column and some row matches; the value is the base form of the first matching row |
| Evolution.FirstEvolved | src/utils.py:283-285 | succeeds exactly when the table has a second column, with that column's duplicate-free values |
| Evolution.SecondEvolved | src/utils.py:287-289 | succeeds exactly when the table has a third column, with that column's duplicate-free values |
| Evolution.UnknownNameHasEmptyLine | src/utils.py:272-281 | a name that matches no row yields empty columns and an IndexError for the base form |
| Strings.Find | src/utils.py:266 | the result is the first index where the query occurs, and none means it occurs nowhere |
| Strings.ContainsIffOccurs | src/utils.py:266 | Python's `in` on strings holds exactly when the query occurs at some index |
| Strings.Split | src/displays.py:24 | the pieces join back to the input with the separator, and no piece contains the separator |
| Strings.SplitJoin | src/displays.py:24 | splitting joined pieces gives them back when no piece contains the separator's first character |
| Strings.Digits | src/displays.py:29 | `str(n)` is a digit string without leading zero that reads back as n |
| Strings.ZFill | src/displays.py:29 | for an unsigned string, pads on the left with '0' up to the width and ends with the original string |
| Strings.ZFillDigitsValue | src/displays.py:29 | a zero-filled number still reads back as that number |
| Displays.StripListMarksChars | src/displays.py:24 | the three `replace` calls remove exactly the characters ']', '[' and the single quote |
| Displays.StripAppend | src/displays.py:24 | removing the list marks distributes over concatenation |
| Displays.StripQuoted | src/displays.py:24 | a quoted plain name strips back to the name |
| Displays.StripQuotedJoin | src/displays.py:24 | the quoted, comma-joined names strip back to the plain comma-joined names |
| Displays.ParseAbilities | src/displays.py:24 | at least one piece; no piece holds a list mark or ", "; the pieces join back to the stripped text |
| Displays.ParseListRepr | src/displays.py:24-27 | parsing the printed form of a list of plain ability names gives the list back, and fills the slots from it |
| Displays.EmptyListHasEmptySlots | src/displays.py:24-27 | the empty list "[]" parses to one empty name and three empty slots |
| Displays.Slots | src/displays.py:25-27 | the three slots are the first three names, padded with "" when the list is shorter |
| Displays.SlotsIgnoreExtra | src/displays.py:25-27 | names beyond the third never reach a slot, and a list of fewer than three names has no hidden ability |
| Displays.AbilityLines | src/displays.py:55-60 | the lines are the non-empty slots in slot order, the hidden one marked " (Hidden)" |
| Displays.TypeNumber | src/displays.py:23 | the count is 1 exactly when the second type is missing, else 2 |
| Displays.TypeBadges | src/displays.py:43-45 | one badge per type, the first type first and the second only when present |
| Displays.Title | src/displays.py:29 | the title is the name, " #", and at least three digits that read back as the id |
| Displays.TypeName | src/displays.py:111-112 | the type name follows "against_" up to the next '_' and holds no '_' |
| Displays.TypeNameIsSplit | src/displays.py:112 | that type name is exactly piece 1 of `column.split('_')` |
| Displays.BucketAppend | src/displays.py:113-120 | one more field adds its type name to the bucket of its exact multiplier and to no other |
| Displays.BucketMembers | src/displays.py:109-120 | a type is in the bucket of m exactly when some against_ column naming it holds m |
| Displays.BucketInColumnOrder | src/displays.py:109-120 | each bucket lists its types in the order of their against_ columns |
| Displays.BucketsPartition | src/displays.py:113-120 | the four buckets together hold one entry per field with multiplier 4, 2, 0.5 or 0.25 |
| Displays.TypeDefenses | src/displays.py:109-120 | the classification loop, with its if/elif order, fills each list with exactly the bucket of its multiplier |

`Defenses` keeps the four lists in display order: x4, x2, x0.5, x0.25
(src/displays.py:211-233).

## Left out

- The UMAP fit (src/utils.py:37-43) and its `MinMaxScaler` input scaling are numeric library calls. The fitted coordinates are the input of `NormalizeComponents`.
- Floating point is modelled with exact reals, so numpy's rounding and NaN propagation are not modelled. `np.round(similarities, 4)` (src/utils.py:205) is not applied to the similarity column.
- `_cosine_similarity` and `_vectorized_cosine_similarity` (src/utils.py:152-159) are never called by the core.
- Plotting, the colour maps, the pop-out axis centring (src/utils.py:137-146), all HTML/CSS rendering, the base-stat chart and the AgGrid table are left out because they only display results.
- CSV and image loading (`load_pokemon_dataframe`, `get_pokemon_image`, reading `data/evolutions.csv`) are I/O. The data are passed in as values.
- `get_pokemon_name`, the scripts, `plots.py` and `main.py` are not part of this model.
- MinMaxScale: a zero span gives `Err(NotANumber)` for the whole column instead of a column of NaN values.
- NormalizeComponents: a constant axis makes the whole result an error, instead of one NaN axis next to a valid one.
- GetSimilarities: any missing reference name is `Err(NotFound)`. numpy raises a `ValueError` there: a failed broadcast, or for a table of at most one row the `.min()` of an empty array (src/utils.py:167). A name present on several rows uses its first row, while numpy fails to broadcast unless every row has that name. The lemmas about it assume unique names.
- PokemonTable: a failed scoring is an error for the table instead of a table whose similarity column is NaN.
- SortBySimilarity: the order among equal similarities is not fixed, because pandas' default sort is not stable.
- Title: the id is a natural number, so `zfill`'s handling of a leading sign is not modelled; ZFill requires a string without a leading sign.
- ParseListRepr: stated only for ability names free of brackets, quotes and commas, which is the printed form the data set uses.
- ColorLabels: "type" mode yields the first-type labels plotly colours by; nothing else of that plot is modelled.
- TypeDefenses: cell values are exact reals, strings or missing. Python's `==` between an int and a float is modelled as equality of reals.

=== FILE: dataset.dfy ===
/** The creature table as the core sees it: one `Pokemon` record per row,
    the descriptors used to choose the embedding's feature columns, and the
    lookups by name and by pokedex number. */
module Dataset {
  import opened Results
  import opened Seqs

  /** One row of the creature table, restricted to the columns the core
      reads. A missing second type (pandas NaN) is `None`. */
  datatype Pokemon = Pokemon(number: int, name: string, type1: string, type2: Option<string>)

  /** The dataset's key invariant: no two rows share a name. */
  predicate UniqueNames(table: seq<Pokemon>) {
    forall i, j :: 0 <= i < j < |table| ==> table[i].name != table[j].name
  }

  predicate UniqueNumbers(table: seq<Pokemon>) {
    forall i, j :: 0 <= i < j < |table| ==> table[i].number != table[j].number
  }

  /** What the feature selection knows about one column: whether pandas
      reports it numeric, and how many of its values are missing. */
  datatype ColumnInfo = ColumnInfo(name: string, numeric: bool, missing: nat)

  /** Numeric columns that are identifiers, percentages or physical sizes and
      so are kept out of the embedding. */
  const RemovedColumns: seq<string> :=
    ["percentage_male", "generation", "pokedex_number", "height_m", "weight_kg"]

  predicate IsFeature(c: ColumnInfo) {
    c.numeric && c.name !in RemovedColumns && c.missing == 0
  }

  /** The columns fed to the embedding: numeric, not removed, with no missing
      value, in table order. */
  function FeatureColumns(cols: seq<ColumnInfo>): (r: seq<ColumnInfo>)
    ensures forall c :: c in r <==>
      c in cols && c.numeric && c.name !in RemovedColumns && c.missing == 0
    ensures forall c :: multiset(r)[c] == if IsFeature(c) then multiset(cols)[c] else 0
    ensures Subsequence(r, cols)
  {
    FilterCount(cols, IsFeature);
    FilterIsSubsequence(cols, IsFeature);
    Filter(cols, IsFeature)
  }

  /** `pokemon_df[pokemon_df["name"] == name]["pokedex_number"].values[0]`. */
  function PokedexNumber(table: seq<Pokemon>, name: string): (r: Result<int>)
    ensures r.Err? <==> forall i :: 0 <= i < |table| ==> table[i].name != name
    ensures r.Err? ==> r.error == IndexError
    ensures r.Ok? ==> exists i :: (0 <= i < |table| && table[i].name == name && table[i].number == r.value &&
      forall j :: 0 <= j < i ==> table[j].name != name)
    ensures r.Ok? && UniqueNames(table) ==>
      forall i :: 0 <= i < |table| && table[i].name == name ==> table[i].number == r.value
  {
    match FirstWhere(table, (p: Pokemon) => p.name == name)
    case None => Err(IndexError)
    case Some(i) => Ok(table[i].number)
  }
}

=== FILE: displays.dfy ===
/** The record formatting of the creature page: parsing the serialised
    ability list into three slots, the type count and badges, the page
    title, and the bucketing of the `against_<type>` damage multipliers into
    weaknesses and resistances. Rendering (HTML, CSS, charts) is not
    modelled; the functions return what would be rendered. */
module Displays {
  import opened Results
  import opened Seqs
  import opened Strings

  // ---------------------------------------------------------------- abilities

  /** The test that keeps every character other than `c`. */
  function Other(c: char): char -> bool {
    (ch: char) => ch != c
  }

  /** `s.replace(c, '')`. */
  function RemoveChar(s: string, c: char): string {
    Filter(s, Other(c))
  }

  lemma RemoveCharAppend(a: string, b: string, c: char)
    ensures RemoveChar(a + b, c) == RemoveChar(a, c) + RemoveChar(b, c)
  {
    FilterAppend(a, b, Other(c));
  }

  lemma RemoveCharAbsent(s: string, c: char)
    requires c !in s
    ensures RemoveChar(s, c) == s
  {
    FilterAll(s, Other(c));
  }

  predicate IsListMark(ch: char) {
    ch == '[' || ch == ']' || ch == '\''
  }

  /** `.replace(']', '').replace('[', '').replace("'", '')`. */
  function StripListMarks(s: string): string {
    RemoveChar(RemoveChar(RemoveChar(s, ']'), '['), '\'')
  }

  /** Stripping removes exactly the list marks. */
  lemma StripListMarksChars(s: string)
    ensures forall ch :: ch in StripListMarks(s) <==> ch in s && !IsListMark(ch)
  {
  }

  lemma StripAppend(a: string, b: string)
    ensures StripListMarks(a + b) == StripListMarks(a) + StripListMarks(b)
  {
    RemoveCharAppend(a, b, ']');
    RemoveCharAppend(RemoveChar(a, ']'), RemoveChar(b, ']'), '[');
    RemoveCharAppend(RemoveChar(RemoveChar(a, ']'), '['), RemoveChar(RemoveChar(b, ']'), '['), '\'');
  }

  lemma StripUnmarked(s: string)
    requires forall k :: 0 <= k < |s| ==> !IsListMark(s[k])
    ensures StripListMarks(s) == s
  {
    RemoveCharAbsent(s, ']');
    RemoveCharAbsent(s, '[');
    RemoveCharAbsent(s, '\'');
  }

  /** The ability list of a record: the serialised list with its brackets and
      quotes removed, split on ", ". */
  function ParseAbilities(s: string): (r: seq<string>)
    ensures |r| >= 1
    ensures forall k, ch :: 0 <= k < |r| && ch in r[k] ==> !IsListMark(ch)
    ensures forall k :: 0 <= k < |r| ==> !Contains(r[k], ", ")
    ensures Join(r, ", ") == StripListMarks(s)
  {
    StripListMarksChars(s);
    Split(StripListMarks(s), ", ")
  }

  /** The three ability slots shown on the page. */
  datatype AbilitySlots = AbilitySlots(first: string, second: string, hidden: string)

  /** Items 0, 1 and 2 of the list, or "" where the list is shorter. */
  function Slots(abilities: seq<string>): (r: AbilitySlots)
    ensures |abilities| >= 3 ==> [r.first, r.second, r.hidden] == abilities[..3]
    ensures |abilities| < 3 ==> [r.first, r.second, r.hidden] == abilities + seq(3 - |abilities|, _ => "")
  {
    AbilitySlots(
      if |abilities| > 0 then abilities[0] else "",
      if |abilities| > 1 then abilities[1] else "",
      if |abilities| > 2 then abilities[2] else "")
  }

  /** Items past the third never reach a slot. */
  lemma {:induction false} SlotsIgnoreExtra(abilities: seq<string>, extra: seq<string>)
    ensures |abilities| >= 3 ==> Slots(abilities + extra) == Slots(abilities)
    ensures |abilities| < 3 ==> Slots(abilities).hidden == ""
  {
  }

  /** Python's `str(list)` of a list of strings without quotes inside. */
  function ListRepr(items: seq<string>): string {
    "[" + Join(Quoted(items), ", ") + "]"
  }

  function Quoted(items: seq<string>): (r: seq<string>)
    ensures |r| == |items|
    ensures forall k :: 0 <= k < |items| ==> r[k] == "'" + items[k] + "'"
  {
    seq(|items|, k requires 0 <= k < |items| => "'" + items[k] + "'")
  }

  predicate PlainAbility(name: string) {
    forall k :: 0 <= k < |name| ==> !IsListMark(name[k]) && name[k] != ','
  }

  /** The marks alone strip to nothing. */
  lemma StripMarks()
    ensures StripListMarks("'") == ""
    ensures StripListMarks("[") == ""
    ensures StripListMarks("]") == ""
  {
    assert RemoveChar("'", ']') == "'";
    assert RemoveChar("'", '[') == "'";
    assert RemoveChar("'", '\'') == "";
    assert RemoveChar("[", ']') == "[";
    assert RemoveChar("[", '[') == "";
    assert RemoveChar("", '\'') == "";
    assert RemoveChar("]", ']') == "";
    assert RemoveChar("", '[') == "";
  }

  /** A quoted plain name strips back to the name. */
  lemma StripQuoted(name: string)
    requires PlainAbility(name)
    ensures StripListMarks("'" + name + "'") == name
  {
    StripAppend("'", name);
    StripAppend("'" + name, "'");
    StripUnmarked(name);
    StripMarks();
  }

  /** The separator survives stripping. */
  lemma StripSeparated(a: string, b: string)
    ensures StripListMarks(a + ", " + b) == StripListMarks(a) + ", " + StripListMarks(b)
  {
    StripAppend(a + ", ", b);
    StripAppend(a, ", ");
    StripUnmarked(", ");
  }

  lemma {:induction false} StripQuotedJoin(items: seq<string>)
    requires forall k :: 0 <= k < |items| ==> PlainAbility(items[k])
    ensures StripListMarks(Join(Quoted(items), ", ")) == Join(items, ", ")
    decreases |items|
  {
    if |items| == 0 {
      assert StripListMarks("") == "";
    } else {
      var q := "'" + items[0] + "'";
      StripQuoted(items[0]);
      if |items| > 1 {
        var rest := Join(Quoted(items[1..]), ", ");
        StripQuotedJoin(items[1..]);
        assert Quoted(items)[1..] == Quoted(items[1..]);
        StripSeparated(q, rest);
      }
    }
  }

  /** Parsing the serialised form of a list of ability names gives the list
      back, and so fills the slots from it. */
  lemma ParseListRepr(items: seq<string>)
    requires |items| > 0
    requires forall k :: 0 <= k < |items| ==> PlainAbility(items[k])
    ensures ParseAbilities(ListRepr(items)) == items
    ensures Slots(ParseAbilities(ListRepr(items))) == Slots(items)
  {
    var inner := Join(Quoted(items), ", ");
    StripAppend("[", inner);
    StripAppend("[" + inner, "]");
    StripMarks();
    StripQuotedJoin(items);
    assert StripListMarks(ListRepr(items)) == Join(items, ", ");
    SplitJoin(items, ", ");
  }

  /** An empty ability list, serialised as "[]", leaves all three slots
      empty. */
  lemma EmptyListHasEmptySlots()
    ensures ParseAbilities("[]") == [""]
    ensures Slots(ParseAbilities("[]")) == AbilitySlots("", "", "")
  {
    assert RemoveChar("[]", ']') == "[" by {
      assert "[]" == "[" + "]";
      RemoveCharAppend("[", "]", ']');
    }
    assert RemoveChar("[", '[') == "";
    assert RemoveChar("", '\'') == "";
    assert Split("", ", ") == [""];
  }

  /** The label of the hidden slot: the name marked " (Hidden)", or "" when
      the slot is empty. */
  function HiddenLabel(hidden: string): string {
    if hidden == "" then "" else hidden + " (Hidden)"
  }

  function NonEmpty(): string -> bool {
    (a: string) => a != ""
  }

  /** The subheaders listing the abilities: one per non-empty slot, in slot
      order, the hidden one marked " (Hidden)". */
  function AbilityLines(slots: AbilitySlots): (lines: seq<string>)
    ensures lines == Filter([slots.first, slots.second, HiddenLabel(slots.hidden)], NonEmpty())
    ensures forall k :: 0 <= k < |lines| ==> lines[k] != ""
    ensures slots.hidden != "" ==> |lines| > 0 && lines[|lines| - 1] == slots.hidden + " (Hidden)"
  {
    FilterThree(slots.first, slots.second, HiddenLabel(slots.hidden), NonEmpty());
    (if slots.first != "" then [slots.first] else []) +
    (if slots.second != "" then [slots.second] else []) +
    (if slots.hidden != "" then [slots.hidden + " (Hidden)"] else [])
  }

  // ------------------------------------------------------------ types & title

  /** `type_number`: 1 when the second type is missing, 2 otherwise. */
  function TypeNumber(type2: Option<string>): (n: nat)
    ensures n == 1 || n == 2
    ensures n == 1 <==> type2.None?
  {
    if type2.None? then 1 else 2
  }

  /** The type badges: the first type, then the second only when the type
      count is 2. */
  function TypeBadges(type1: string, type2: Option<string>): (badges: seq<string>)
    ensures |badges| == TypeNumber(type2)
    ensures badges[0] == type1
    ensures |badges| == 2 ==> type2.Some? && badges[1] == type2.value
  {
    [type1] + if TypeNumber(type2) == 2 then [type2.value] else []
  }

  /** `name + ' #' + str(id).zfill(3)`. */
  function Title(name: string, id: nat): (t: string)
    ensures |t| >= |name| + 5
    ensures t[..|name| + 2] == name + " #"
    ensures var digits := t[|name| + 2..];
      |digits| == (if |Digits(id)| >= 3 then |Digits(id)| else 3) &&
      AllDigits(digits) && DecimalValue(digits) == id
  {
    var digits := ZFill(Digits(id), 3);
    ZFillDigitsValue(id, 3);
    var t := name + " #" + digits;
    assert t[|name| + 2..] == digits;
    t
  }

  // ------------------------------------------------------------ type defenses

  /** A cell of a creature record: a number, a string or missing. */
  datatype Value = Num(x: real) | Str(s: string) | Null

  datatype Field = Field(column: string, value: Value)

  /** A creature's record as `(column, value)` pairs in column order. */
  type Record = seq<Field>

  predicate IsAgainst(column: string) {
    "against_" <= column
  }

  lemma FindUnderscoreInAgainst(column: string)
    requires IsAgainst(column)
    ensures Find(column, "_") == Some(7)
  {
    assert column[..8] == "against_";
    assert OccursAt(column, "_", 7) by {
      assert column[7..8] == "_";
    }
    forall j: nat | j < 7 ensures !OccursAt(column, "_", j) {
      assert column[j] != '_';
    }
  }

  /** The text before the first '_' of `s` (all of `s` when it has none). */
  function Segment(s: string): (t: string)
    ensures '_' !in t
    ensures t <= s
    ensures |t| == |s| || s[|t|] == '_'
    decreases |s|
  {
    if |s| == 0 || s[0] == '_' then "" else [s[0]] + Segment(s[1..])
  }

  /** The type an `against_` column is about: the text after the first '_'
      up to the next '_'. */
  function TypeName(column: string): (t: string)
    requires IsAgainst(column)
    ensures '_' !in t
    ensures "against_" + t <= column
    ensures |column| == 8 + |t| || column[8 + |t|] == '_'
  {
    assert column == "against_" + column[8..];
    Segment(column[8..])
  }

  lemma {:induction false} SegmentIsFirstPiece(s: string)
    ensures Segment(s) == Split(s, "_")[0]
  {
    var pieces := Split(s, "_");
    var t := pieces[0];
    ContainsChar(t, '_');
    if |pieces| > 1 {
      assert s[|t|..|t| + 1] == "_";
    } else {
      assert t == s;
    }
    SegmentUnique(s, t);
  }

  lemma {:induction false} SegmentUnique(s: string, t: string)
    requires '_' !in t && t <= s && (|t| == |s| || s[|t|] == '_')
    ensures Segment(s) == t
    decreases |s|
  {
    if |t| > 0 {
      SegmentUnique(s[1..], t[1..]);
    }
  }

  /** The type name is exactly what `column.split('_')[1]` returns. */
  lemma TypeNameIsSplit(column: string)
    requires IsAgainst(column)
    ensures |Split(column, "_")| >= 2 && TypeName(column) == Split(column, "_")[1]
  {
    FindUnderscoreInAgainst(column);
    var rest := column[8..];
    assert column == column[..7] + "_" + rest;
    assert Split(column, "_") == [column[..7]] + Split(rest, "_");
    SegmentIsFirstPiece(rest);
  }

  /** The column counts towards the bucket of multiplier `m`. */
  predicate Hits(f: Field, m: real) {
    IsAgainst(f.column) && f.value == Num(m)
  }

  function TypeNames(fields: seq<Field>): (names: seq<string>)
    requires forall k :: 0 <= k < |fields| ==> IsAgainst(fields[k].column)
    ensures |names| == |fields|
    ensures forall k :: 0 <= k < |fields| ==> names[k] == TypeName(fields[k].column)
  {
    seq(|fields|, k requires 0 <= k < |fields| => TypeName(fields[k].column))
  }

  /** The test selecting `against_` fields. */
  function AgainstTest(): Field -> bool {
    (f: Field) => IsAgainst(f.column)
  }

  /** The test selecting the fields that count towards multiplier `m`. */
  function HitTest(m: real): Field -> bool {
    (f: Field) => Hits(f, m)
  }

  function AgainstFields(fields: seq<Field>): (r: seq<Field>)
    ensures forall k :: 0 <= k < |r| ==> IsAgainst(r[k].column)
  {
    var r := Filter(fields, AgainstTest());
    assert forall k :: 0 <= k < |r| ==> r[k] in r;
    r
  }

  function HitFields(fields: seq<Field>, m: real): (r: seq<Field>)
    ensures forall k :: 0 <= k < |r| ==> Hits(r[k], m)
  {
    var r := Filter(fields, HitTest(m));
    assert forall k :: 0 <= k < |r| ==> r[k] in r;
    r
  }

  /** The reference definition of one bucket: the type names of the
      `against_` columns whose value is exactly `m`, in column order. */
  function Bucket(fields: seq<Field>, m: real): seq<string> {
    TypeNames(HitFields(fields, m))
  }

  lemma BucketAppend(fields: seq<Field>, f: Field, m: real)
    ensures Bucket(fields + [f], m) ==
      Bucket(fields, m) + if Hits(f, m) then [TypeName(f.column)] else []
  {
    FilterAppend(fields, [f], HitTest(m));
    assert [f][1..] == [];
  }

  /** A type is in the bucket of `m` exactly when some `against_` column
      naming it holds `m`. */
  lemma BucketMembers(fields: seq<Field>, m: real, t: string)
    ensures t in Bucket(fields, m) <==>
      exists k :: 0 <= k < |fields| && Hits(fields[k], m) && TypeName(fields[k].column) == t
  {
    var h := HitFields(fields, m);
    if t in Bucket(fields, m) {
      var n :| 0 <= n < |h| && TypeName(h[n].column) == t;
      assert h[n] in fields;
    }
    if exists k :: 0 <= k < |fields| && Hits(fields[k], m) && TypeName(fields[k].column) == t {
      var k :| 0 <= k < |fields| && Hits(fields[k], m) && TypeName(fields[k].column) == t;
      assert fields[k] in h;
      var n :| 0 <= n < |h| && h[n] == fields[k];
      assert Bucket(fields, m)[n] == t;
    }
  }

  lemma {:induction false} SubsequenceTypeNames(a: seq<Field>, b: seq<Field>)
    requires forall k :: 0 <= k < |b| ==> IsAgainst(b[k].column)
    requires forall k :: 0 <= k < |a| ==> IsAgainst(a[k].column)
    requires Subsequence(a, b)
    ensures Subsequence(TypeNames(a), TypeNames(b))
    decreases |b|
  {
    if |a| > 0 {
      assert TypeNames(b)[1..] == TypeNames(b[1..]);
      if a[0] == b[0] && Subsequence(a[1..], b[1..]) {
        assert TypeNames(a)[1..] == TypeNames(a[1..]);
        SubsequenceTypeNames(a[1..], b[1..]);
      } else {
        SubsequenceTypeNames(a, b[1..]);
      }
    }
  }

  lemma {:induction false} FilterNarrows(xs: seq<Field>, m: real)
    ensures HitFields(xs, m) == Filter(AgainstFields(xs), HitTest(m))
    decreases |xs|
  {
    if |xs| > 0 {
      FilterNarrows(xs[1..], m);
    }
  }

  /** Each bucket lists its types in the order their columns appear among
      the `against_` columns. */
  lemma BucketInColumnOrder(fields: seq<Field>, m: real)
    ensures Subsequence(Bucket(fields, m), TypeNames(AgainstFields(fields)))
  {
    FilterNarrows(fields, m);
    FilterIsSubsequence(AgainstFields(fields), HitTest(m));
    SubsequenceTypeNames(HitFields(fields, m), AgainstFields(fields));
  }

  predicate Classified(f: Field) {
    Hits(f, 4.0) || Hits(f, 2.0) || Hits(f, 0.5) || Hits(f, 0.25)
  }

  /** The four buckets never share a column: together they hold exactly one
      entry per `against_` column whose multiplier is 4, 2, 0.5 or 0.25, and
      none for any other multiplier. */
  lemma {:induction false} BucketsPartition(fields: seq<Field>)
    ensures |Bucket(fields, 4.0)| + |Bucket(fields, 2.0)| + |Bucket(fields, 0.5)| + |Bucket(fields, 0.25)|
      == |Filter(fields, Classified)|
    decreases |fields|
  {
    if |fields| > 0 {
      var f, rest := fields[0], fields[1..];
      assert fields == [f] + rest;
      BucketsPartition(rest);
      FilterAppend([f], rest, Classified);
      FilterAppend([f], rest, HitTest(4.0));
      FilterAppend([f], rest, HitTest(2.0));
      FilterAppend([f], rest, HitTest(0.5));
      FilterAppend([f], rest, HitTest(0.25));
    }
  }

  /** The four lists the page displays. */
  datatype Defenses = Defenses(quadruple: seq<string>, double: seq<string>,
                               half: seq<string>, quarter: seq<string>)

  /** All fields of the selected rows, row after row. */
  function Flatten(rows: seq<Record>): seq<Field>
    decreases |rows|
  {
    if |rows| == 0 then [] else Flatten(rows[..|rows| - 1]) + rows[|rows| - 1]
  }

  /** The classification loop of the source: every `against_` field of every
      selected row goes to the bucket of its exact multiplier, tested in the
      order 0.5, 0.25, 2, 4, or to none. */
  method TypeDefenses(rows: seq<Record>) returns (d: Defenses)
    ensures d.quadruple == Bucket(Flatten(rows), 4.0)
    ensures d.double == Bucket(Flatten(rows), 2.0)
    ensures d.half == Bucket(Flatten(rows), 0.5)
    ensures d.quarter == Bucket(Flatten(rows), 0.25)
  {
    var weakness2, weakness4, resistanceHalf, resistanceQuarter := [], [], [], [];
    var i := 0;
    assert rows[..0] == [];
    while i < |rows|
      invariant 0 <= i <= |rows|
      invariant weakness4 == Bucket(Flatten(rows[..i]), 4.0)
      invariant weakness2 == Bucket(Flatten(rows[..i]), 2.0)
      invariant resistanceHalf == Bucket(Flatten(rows[..i]), 0.5)
      invariant resistanceQuarter == Bucket(Flatten(rows[..i]), 0.25)
    {
      var row := rows[i];
      var j := 0;
      ghost var seen := Flatten(rows[..i]);
      assert row[..0] == [];
      while j < |row|
        invariant 0 <= j <= |row|
        invariant seen == Flatten(rows[..i]) + row[..j]
        invariant weakness4 == Bucket(seen, 4.0)
        invariant weakness2 == Bucket(seen, 2.0)
        invariant resistanceHalf == Bucket(seen, 0.5)
        invariant resistanceQuarter == Bucket(seen, 0.25)
      {
        var f := row[j];
        assert row[..j + 1] == row[..j] + [f];
        BucketAppend(seen, f, 4.0);
        BucketAppend(seen, f, 2.0);
        BucketAppend(seen, f, 0.5);
        BucketAppend(seen, f, 0.25);
        if IsAgainst(f.column) {
          var t := TypeName(f.column);
          if f.value == Num(0.5) {
            resistanceHalf := resistanceHalf + [t];
          } else if f.value == Num(0.25) {
            resistanceQuarter := resistanceQuarter + [t];
          } else if f.value == Num(2.0) {
            weakness2 := weakness2 + [t];
          } else if f.value == Num(4.0) {
            weakness4 := weakness4 + [t];
          }
        }
        seen := seen + [f];
        j := j + 1;
      }
      assert rows[..i + 1][..i] == rows[..i];
      assert row[..j] == row;
      assert Flatten(rows[..i + 1]) == Flatten(rows[..i]) + row;
      i := i + 1;
    }
    assert rows[..i] == rows;
    d := Defenses(weakness4, weakness2, resistanceHalf, resistanceQuarter);
  }
}

=== FILE: evolution.dfy ===
/** The evolution-line resolver: scan the evolution table for rows in which
    any cell contains the queried name as a substring, then list, column by
    column, the distinct values of the matching rows in first-occurrence
    order. The three accessors read the base form, the first-stage list and
    the second-stage list off that result. The table is passed in directly
    instead of being read from `data/evolutions.csv`. */
module Evolution {
  import opened Results
  import opened Seqs
  import opened Strings

  /** One cell of the evolution table; an empty CSV cell is pandas NaN. */
  datatype Cell = Text(s: string) | Missing

  /** Python's `str(cell)`: a NaN cell prints as "nan". */
  function CellText(c: Cell): string {
    match c
    case Text(s) => s
    case Missing => "nan"
  }

  /** The evolution table: `width` columns (base form, first stage, second
      stage in the data set) and its rows. */
  datatype Table = Table(width: nat, rows: seq<seq<Cell>>)

  /** Every row has one cell per column, as in a data frame. */
  predicate WellFormed(t: Table) {
    forall i :: 0 <= i < |t.rows| ==> |t.rows[i]| == t.width
  }

  /** Some cell of the row contains the query as a substring. */
  predicate RowMatches(row: seq<Cell>, query: string) {
    exists k :: 0 <= k < |row| && Contains(CellText(row[k]), query)
  }

  /** The test applied to each row. */
  function MatchTest(query: string): seq<Cell> -> bool {
    (row: seq<Cell>) => RowMatches(row, query)
  }

  /** The rows the scan keeps, in table order. */
  function MatchingRows(rows: seq<seq<Cell>>, query: string): (r: seq<seq<Cell>>)
    ensures forall row :: row in r <==> row in rows && RowMatches(row, query)
  {
    Filter(rows, MatchTest(query))
  }

  /** The matching rows keep their table order, and each matching row is
      kept as often as it occurs in the table. */
  lemma MatchingRowsOrder(rows: seq<seq<Cell>>, query: string)
    ensures Subsequence(MatchingRows(rows, query), rows)
    ensures forall row ::
      multiset(MatchingRows(rows, query))[row] == (if RowMatches(row, query) then multiset(rows)[row] else 0)
  {
    FilterCount(rows, MatchTest(query));
    FilterIsSubsequence(rows, MatchTest(query));
  }

  lemma MatchingRowsOne(row: seq<Cell>, query: string)
    ensures MatchingRows([row], query) == if RowMatches(row, query) then [row] else []
  {
    assert [row][1..] == [];
  }

  lemma MatchingRowsAppend(a: seq<seq<Cell>>, b: seq<seq<Cell>>, query: string)
    ensures MatchingRows(a + b, query) == MatchingRows(a, query) + MatchingRows(b, query)
  {
    FilterAppend(a, b, MatchTest(query));
  }

  /** One more row scanned adds that row when it matches. */
  lemma MatchingRowsStep(rows: seq<seq<Cell>>, i: nat, query: string)
    requires i < |rows|
    ensures MatchingRows(rows[..i + 1], query) ==
      MatchingRows(rows[..i], query) + if RowMatches(rows[i], query) then [rows[i]] else []
  {
    MatchingRowsOne(rows[i], query);
    assert rows[..i + 1] == rows[..i] + [rows[i]];
    MatchingRowsAppend(rows[..i], [rows[i]], query);
  }

  /** The inner loop of the scan: test the cells in column order and stop
      at the first one that contains the query. */
  method ScanCells(row: seq<Cell>, query: string) returns (found: bool)
    ensures found <==> RowMatches(row, query)
  {
    found := false;
    var j := 0;
    while j < |row|
      invariant 0 <= j <= |row|
      invariant !found
      invariant forall k :: 0 <= k < j ==> !Contains(CellText(row[k]), query)
    {
      if Contains(CellText(row[j]), query) {
        found := true;
        break;
      }
      j := j + 1;
    }
  }

  /** The row-by-row scan of the source: keep each row whose cells contain
      the query, once, and move on to the next row. */
  method ScanRows(t: Table, query: string) returns (matching: seq<seq<Cell>>)
    ensures matching == MatchingRows(t.rows, query)
  {
    matching := [];
    var i := 0;
    while i < |t.rows|
      invariant 0 <= i <= |t.rows|
      invariant matching == MatchingRows(t.rows[..i], query)
    {
      var row := t.rows[i];
      var found := ScanCells(row, query);
      if found {
        matching := matching + [row];
      }
      MatchingRowsStep(t.rows, i, query);
      i := i + 1;
    }
    assert t.rows[..i] == t.rows;
  }

  /** A query that is a substring of a longer cell value pulls in that row:
      the match is by substring, not by whole name. */
  lemma SubstringMatches(row: seq<Cell>, query: string, k: nat, before: string, after: string)
    requires k < |row| && CellText(row[k]) == before + query + after
    ensures RowMatches(row, query)
  {
    var s := CellText(row[k]);
    assert s[|before|..|before| + |query|] == query;
    assert OccursAt(s, query, |before|);
  }

  /** A missing cell reads as "nan", so any query that is a substring of
      "nan" (such as "a" or "an") pulls in every row with a missing cell. */
  lemma MissingCellMatchesNan(row: seq<Cell>, query: string, k: nat, before: string, after: string)
    requires k < |row| && row[k] == Missing && "nan" == before + query + after
    ensures RowMatches(row, query)
  {
    SubstringMatches(row, query, k, before, after);
  }

  /** Column `c` of a list of rows. */
  function Column(rows: seq<seq<Cell>>, c: nat): (col: seq<Cell>)
    requires forall i :: 0 <= i < |rows| ==> c < |rows[i]|
    ensures |col| == |rows|
    ensures forall i :: 0 <= i < |rows| ==> col[i] == rows[i][c]
  {
    seq(|rows|, i requires 0 <= i < |rows| => rows[i][c])
  }

  lemma MatchingRowsWidth(t: Table, query: string)
    requires WellFormed(t)
    ensures var m := MatchingRows(t.rows, query);
      forall i :: 0 <= i < |m| ==> |m[i]| == t.width
  {
    var m := MatchingRows(t.rows, query);
    forall i | 0 <= i < |m| ensures |m[i]| == t.width {
      assert m[i] in t.rows;
    }
  }

  /** `get_pokemon_evolution_line`: for every column, the distinct values of
      that column over the matching rows. */
  function EvolutionLine(t: Table, query: string): (line: seq<seq<Cell>>)
    requires WellFormed(t)
    ensures |line| == t.width
    ensures forall c :: 0 <= c < t.width ==> NoDuplicates(line[c])
  {
    MatchingRowsWidth(t, query);
    var m := MatchingRows(t.rows, query);
    seq(t.width, c requires 0 <= c < t.width => Distinct(Column(m, c)))
  }

  /** A value is listed in column `c` exactly when some matching row holds
      it in that column. */
  lemma EvolutionLineValues(t: Table, query: string, c: nat, v: Cell)
    requires WellFormed(t) && c < t.width
    ensures v in EvolutionLine(t, query)[c] <==>
      exists i :: 0 <= i < |t.rows| && RowMatches(t.rows[i], query) && t.rows[i][c] == v
  {
    MatchingRowsWidth(t, query);
    var m := MatchingRows(t.rows, query);
    var col := Column(m, c);
    assert EvolutionLine(t, query)[c] == Distinct(col);
    if v in col {
      var n :| 0 <= n < |col| && col[n] == v;
      assert m[n] in t.rows;
      var i :| 0 <= i < |t.rows| && t.rows[i] == m[n];
      assert RowMatches(t.rows[i], query) && t.rows[i][c] == v;
    }
    if exists i :: 0 <= i < |t.rows| && RowMatches(t.rows[i], query) && t.rows[i][c] == v {
      var i :| 0 <= i < |t.rows| && RowMatches(t.rows[i], query) && t.rows[i][c] == v;
      assert t.rows[i] in m;
      var n :| 0 <= n < |m| && m[n] == t.rows[i];
      assert col[n] == v;
    }
  }

  /** Column `c` lists its values in the order of their first appearance
      among the matching rows. */
  lemma EvolutionLineOrder(t: Table, query: string, c: nat)
    requires WellFormed(t) && c < t.width
    ensures var m := MatchingRows(t.rows, query);
      var line := EvolutionLine(t, query)[c];
      (forall i :: 0 <= i < |m| ==> c < |m[i]|) &&
      forall a, b :: 0 <= a < b < |line| ==>
        line[a] in Column(m, c) && line[b] in Column(m, c) &&
        FirstIndex(Column(m, c), line[a]) < FirstIndex(Column(m, c), line[b])
  {
    MatchingRowsWidth(t, query);
  }

  /** `get_unevolved`: the first value of the base-form column, which is the
      base form in the first matching row; an `IndexError` when no row
      matches. */
  function Unevolved(t: Table, query: string): (r: Result<Cell>)
    requires WellFormed(t)
    ensures r.Ok? <==> t.width > 0 && exists i :: 0 <= i < |t.rows| && RowMatches(t.rows[i], query)
    ensures r.Err? ==> r.error == IndexError
    ensures r.Ok? ==> exists i :: (0 <= i < |t.rows| && RowMatches(t.rows[i], query) &&
      (forall k :: 0 <= k < i ==> !RowMatches(t.rows[k], query)) && r.value == t.rows[i][0])
  {
    var line := EvolutionLine(t, query);
    if |line| == 0 then Err(IndexError)
    else
      MatchingRowsWidth(t, query);
      var m := MatchingRows(t.rows, query);
      assert line[0] == Distinct(Column(m, 0));
      if |line[0]| == 0 then
        assert |m| == 0;
        Err(IndexError)
      else
        DistinctHead(Column(m, 0));
        FilterHead(t.rows, MatchTest(query));
        Ok(line[0][0])
  }

  /** `get_first_evolved`: the distinct first-stage values of the matching
      rows; an `IndexError` when the table has no such column. */
  function FirstEvolved(t: Table, query: string): (r: Result<seq<Cell>>)
    requires WellFormed(t)
    ensures r.Ok? <==> t.width >= 2
    ensures r.Err? ==> r.error == IndexError
    ensures r.Ok? ==> r.value == EvolutionLine(t, query)[1] && NoDuplicates(r.value)
  {
    if t.width < 2 then Err(IndexError) else Ok(EvolutionLine(t, query)[1])
  }

  /** `get_second_evolved`: the distinct second-stage values of the matching
      rows; an `IndexError` when the table has no such column. */
  function SecondEvolved(t: Table, query: string): (r: Result<seq<Cell>>)
    requires WellFormed(t)
    ensures r.Ok? <==> t.width >= 3
    ensures r.Err? ==> r.error == IndexError
    ensures r.Ok? ==> r.value == EvolutionLine(t, query)[2] && NoDuplicates(r.value)
  {
    if t.width < 3 then Err(IndexError) else Ok(EvolutionLine(t, query)[2])
  }

  /** A name that matches no row has no evolution line: every column is
      empty, so the stage lists are empty and the base form is an error. */
  lemma UnknownNameHasEmptyLine(t: Table, query: string)
    requires WellFormed(t)
    requires forall i :: 0 <= i < |t.rows| ==> !RowMatches(t.rows[i], query)
    ensures forall c :: 0 <= c < t.width ==> EvolutionLine(t, query)[c] == []
    ensures Unevolved(t, query) == Err(IndexError)
  {
    forall c | 0 <= c < t.width ensures EvolutionLine(t, query)[c] == [] {
      var line := EvolutionLine(t, query)[c];
      if |line| > 0 {
        EvolutionLineValues(t, query, c, line[0]);
      }
    }
  }
}

=== FILE: results.dfy ===
/** Failure values for the dashboard's lookup and scaling code.

    The Python code signals failure by raising (an `IndexError` from
    `.values[0]` on an empty selection, a `ValueError` for a bad plot mode or
    an empty reduction) or, for a zero span in a min-max division, by silently
    producing NaN. Each of these becomes one constructor of `Error`.
 */
module Results {

  datatype Error =
    | IndexError                // `.values[0]` or `[0]` on an empty selection
    | ValueError(msg: string)   // an explicit `raise ValueError(...)`
    | NotFound                  // the reference row is absent, so numpy raises
    | NotANumber                // a min-max scale over a zero span divides 0 by 0

  datatype Option<+T> = None | Some(value: T)

  /** A failure-compatible result, usable with `:-`. */
  datatype Result<+T> = Ok(value: T) | Err(error: Error) {

    predicate IsFailure() {
      Err?
    }

    function PropagateFailure<U>(): Result<U>
      requires Err?
    {
      Err(error)
    }

    function Extract(): T
      requires Ok?
    {
      value
    }
  }
}

=== FILE: scaling.dfy ===
/** Min-max scaling of one column of reals, the scheme the dashboard applies
    to each UMAP axis (`(x - x.min()) / (x.max() - x.min())`) and to the
    vector of distances from the reference creature. */
module Scaling {
  import opened Results

  function Min(xs: seq<real>): (m: real)
    requires |xs| > 0
    ensures m in xs
    ensures forall i :: 0 <= i < |xs| ==> m <= xs[i]
  {
    if |xs| == 1 then xs[0]
    else
      var m := Min(xs[1..]);
      if xs[0] <= m then xs[0] else m
  }

  function Max(xs: seq<real>): (m: real)
    requires |xs| > 0
    ensures m in xs
    ensures forall i :: 0 <= i < |xs| ==> xs[i] <= m
  {
    if |xs| == 1 then xs[0]
    else
      var m := Max(xs[1..]);
      if xs[0] >= m then xs[0] else m
  }

  /** Entry `i` is a smallest entry of the column. */
  predicate IsMin(xs: seq<real>, i: nat)
    requires i < |xs|
  {
    forall j :: 0 <= j < |xs| ==> xs[i] <= xs[j]
  }

  /** Entry `i` is a largest entry of the column. */
  predicate IsMax(xs: seq<real>, i: nat)
    requires i < |xs|
  {
    forall j :: 0 <= j < |xs| ==> xs[j] <= xs[i]
  }

  /** Every entry equals the first: the column has zero span. */
  predicate Constant(xs: seq<real>) {
    forall i :: 0 <= i < |xs| ==> xs[i] == xs[0]
  }

  /** Dividing by a positive number keeps order. */
  lemma DivMonotone(p: real, q: real, d: real)
    requires d > 0.0
    ensures p <= q <==> p / d <= q / d
  {
    var a, b := p / d, q / d;
    assert a * d == p && b * d == q;
    assert (b - a) * d == q - p;
  }

  /** Facts about one scaled value `(x - lo) / (hi - lo)`. */
  lemma ScaledValue(x: real, y: real, lo: real, hi: real)
    requires lo < hi && lo <= x <= hi && lo <= y <= hi
    ensures 0.0 <= (x - lo) / (hi - lo) <= 1.0
    ensures (x - lo) / (hi - lo) == 0.0 <==> x == lo
    ensures (x - lo) / (hi - lo) == 1.0 <==> x == hi
    ensures x <= y <==> (x - lo) / (hi - lo) <= (y - lo) / (hi - lo)
  {
    var d := hi - lo;
    var a := (x - lo) / d;
    assert a * d == x - lo;
    assert 0.0 / d == 0.0;
    DivMonotone(0.0, x - lo, d);
    DivMonotone(x - lo, 0.0, d);
    DivMonotone(x - lo, d, d);
    if x == hi {
      assert (a - 1.0) * d == 0.0;
    }
    DivMonotone(x - lo, y - lo, d);
  }

  /** The min-max scaled column. With a zero span every entry would be
      0 / 0, which numpy and pandas turn into NaN; that outcome is
      `Err(NotANumber)`. An empty column scales to an empty column,
      as for an empty pandas Series, whose `.min()` is NaN rather than an
      error. */
  function MinMaxScale(xs: seq<real>): (r: Result<seq<real>>)
    ensures r.Err? <==> |xs| > 0 && Constant(xs)
    ensures r.Err? ==> r.error == NotANumber
    ensures r.Ok? ==> |r.value| == |xs|
    ensures r.Ok? ==> forall i :: 0 <= i < |xs| ==> 0.0 <= r.value[i] <= 1.0
  {
    if |xs| == 0 then Ok([])
    else
      var lo, hi := Min(xs), Max(xs);
      if lo == hi then
        assert Constant(xs);
        Err(NotANumber)
      else
        assert !Constant(xs) by {
          var j :| 0 <= j < |xs| && xs[j] == hi;
          var k :| 0 <= k < |xs| && xs[k] == lo;
        }
        var v := seq(|xs|, i requires 0 <= i < |xs| => (xs[i] - lo) / (hi - lo));
        forall i | 0 <= i < |xs| ensures 0.0 <= v[i] <= 1.0 {
          ScaledValue(xs[i], xs[i], lo, hi);
        }
        Ok(v)
  }

  /** Scaling keeps the order of the column, sends exactly the minimal
      entries to 0 and exactly the maximal entries to 1. */
  lemma MinMaxScaleOrder(xs: seq<real>)
    requires MinMaxScale(xs).Ok?
    ensures var v := MinMaxScale(xs).value;
      forall i, j :: 0 <= i < |xs| && 0 <= j < |xs| ==> (xs[i] <= xs[j] <==> v[i] <= v[j])
    ensures var v := MinMaxScale(xs).value;
      forall i :: 0 <= i < |xs| ==> (v[i] == 0.0 <==> IsMin(xs, i))
    ensures var v := MinMaxScale(xs).value;
      forall i :: 0 <= i < |xs| ==> (v[i] == 1.0 <==> IsMax(xs, i))
  {
    if |xs| > 0 {
      var lo, hi := Min(xs), Max(xs);
      var v := MinMaxScale(xs).value;
      forall i, j | 0 <= i < |xs| && 0 <= j < |xs|
        ensures xs[i] <= xs[j] <==> v[i] <= v[j]
        ensures v[i] == 0.0 <==> xs[i] == lo
        ensures v[i] == 1.0 <==> xs[i] == hi
      {
        ScaledValue(xs[i], xs[j], lo, hi);
      }
    }
  }
}

=== FILE: seqs.dfy ===
/** Sequence vocabulary shared by the model: order-preserving filtering,
    subsequences, duplicate-free sequences and first-occurrence order. */
module Seqs {
  import opened Results

  /** `sub` can be obtained from `xs` by deleting elements, keeping order. */
  predicate Subsequence<T(==,!new)>(sub: seq<T>, xs: seq<T>)
    decreases |xs|
  {
    |sub| == 0 ||
    (|xs| > 0 &&
      ((sub[0] == xs[0] && Subsequence(sub[1..], xs[1..])) || Subsequence(sub, xs[1..])))
  }

  predicate NoDuplicates<T(==,!new)>(xs: seq<T>) {
    forall i, j :: 0 <= i < j < |xs| ==> xs[i] != xs[j]
  }

  /** The elements of `xs` satisfying `p`, in their original order and with
      their original multiplicity: a list comprehension `[x for x in xs if p(x)]`. */
  function Filter<T(==,!new)>(xs: seq<T>, p: T -> bool): (r: seq<T>)
    ensures |r| <= |xs|
    ensures forall x :: x in r <==> x in xs && p(x)
    decreases |xs|
  {
    if |xs| == 0 then []
    else
      var rest := Filter(xs[1..], p);
      if p(xs[0]) then [xs[0]] + rest else rest
  }

  /** Filtering keeps every selected element as often as it occurs and drops
      every other one. */
  lemma {:induction false} FilterCount<T(!new)>(xs: seq<T>, p: T -> bool)
    ensures forall x :: multiset(Filter(xs, p))[x] == if p(x) then multiset(xs)[x] else 0
    decreases |xs|
  {
    if |xs| > 0 {
      assert xs == [xs[0]] + xs[1..];
      FilterCount(xs[1..], p);
    }
  }

  /** Filtering keeps the original order. */
  lemma {:induction false} FilterIsSubsequence<T(!new)>(xs: seq<T>, p: T -> bool)
    ensures Subsequence(Filter(xs, p), xs)
    decreases |xs|
  {
    if |xs| > 0 {
      FilterIsSubsequence(xs[1..], p);
      var rest := Filter(xs[1..], p);
      if p(xs[0]) {
        assert Filter(xs, p)[1..] == rest;
      }
    }
  }

  lemma {:induction false} FilterAppend<T(!new)>(a: seq<T>, b: seq<T>, p: T -> bool)
    ensures Filter(a + b, p) == Filter(a, p) + Filter(b, p)
    decreases |a|
  {
    if |a| == 0 {
      assert a + b == b;
    } else {
      assert (a + b)[1..] == a[1..] + b;
      FilterAppend(a[1..], b, p);
    }
  }

  /** The index of the first element satisfying `p`: what a boolean-mask
      selection followed by `.values[0]` picks. */
  function FirstWhere<T>(xs: seq<T>, p: T -> bool): (r: Option<nat>)
    ensures r.Some? ==> r.value < |xs| && p(xs[r.value])
    ensures r.Some? ==> forall k :: 0 <= k < r.value ==> !p(xs[k])
    ensures r.None? ==> forall k :: 0 <= k < |xs| ==> !p(xs[k])
    decreases |xs|
  {
    if |xs| == 0 then None
    else if p(xs[0]) then Some(0)
    else match FirstWhere(xs[1..], p)
      case None => None
      case Some(i) => Some(i + 1)
  }

  /** The position of the first occurrence of `x` in `xs`: the search of
      `FirstWhere` for an element equal to `x`, which is known to succeed. */
  function FirstIndex<T(==,!new)>(xs: seq<T>, x: T): (i: nat)
    requires x in xs
    ensures i < |xs| && xs[i] == x
    ensures forall k :: 0 <= k < i ==> xs[k] != x
  {
    FirstWhere(xs, (y: T) => y == x).value
  }

  /** The distinct values of `xs` in first-occurrence order, as pandas'
      `Series.unique()` returns them. */
  function Distinct<T(==,!new)>(xs: seq<T>): (r: seq<T>)
    ensures NoDuplicates(r)
    ensures forall x :: x in r <==> x in xs
    ensures forall i, j :: 0 <= i < j < |r| ==> FirstIndex(xs, r[i]) < FirstIndex(xs, r[j])
    decreases |xs|
  {
    if |xs| == 0 then []
    else
      var init := xs[..|xs| - 1];
      var last := xs[|xs| - 1];
      assert xs == init + [last];
      var d := Distinct(init);
      FirstIndexOfPrefix(xs, |xs| - 1);
      if last in d then d
      else
        assert FirstIndex(xs, last) == |xs| - 1;
        d + [last]
  }

  /** Appending elements does not move the first occurrence of an element
      already present. */
  lemma FirstIndexOfPrefix<T(!new)>(xs: seq<T>, n: nat)
    requires n <= |xs|
    ensures forall x :: x in xs[..n] ==> FirstIndex(xs, x) == FirstIndex(xs[..n], x)
  {
    forall x | x in xs[..n]
      ensures FirstIndex(xs, x) == FirstIndex(xs[..n], x)
    {
      var j := FirstIndex(xs[..n], x);
      assert xs[j] == x;
    }
  }

  /** The first distinct value is the first element. */
  lemma DistinctHead<T(!new)>(xs: seq<T>)
    requires |xs| > 0
    ensures |Distinct(xs)| > 0 && Distinct(xs)[0] == xs[0]
  {
    var r := Distinct(xs);
    assert xs[0] in r;
    var j :| 0 <= j < |r| && r[j] == xs[0];
    assert FirstIndex(xs, xs[0]) == 0;
    assert 0 <= FirstIndex(xs, r[0]);
  }

  /** A non-empty filter starts with the first element that satisfies `p`. */
  lemma {:induction false} FilterHead<T(!new)>(xs: seq<T>, p: T -> bool)
    requires |Filter(xs, p)| > 0
    ensures exists i ::
      0 <= i < |xs| && p(xs[i]) && Filter(xs, p)[0] == xs[i] && forall k :: 0 <= k < i ==> !p(xs[k])
    decreases |xs|
  {
    if !p(xs[0]) {
      FilterHead(xs[1..], p);
      var i :| 0 <= i < |xs[1..]| && p(xs[1..][i]) && Filter(xs[1..], p)[0] == xs[1..][i] &&
        forall k :: 0 <= k < i ==> !p(xs[1..][k]);
      assert forall k :: 1 <= k < i + 1 ==> xs[k] == xs[1..][k - 1];
      assert p(xs[i + 1]) && Filter(xs, p)[0] == xs[i + 1];
    } else {
      assert p(xs[0]) && Filter(xs, p)[0] == xs[0];
    }
  }

  /** Filtering a three-element sequence tests each element in turn. */
  lemma FilterThree<T(!new)>(a: T, b: T, c: T, p: T -> bool)
    ensures Filter([a, b, c], p) ==
      (if p(a) then [a] else []) + (if p(b) then [b] else []) + (if p(c) then [c] else [])
  {
    var pc := if p(c) then [c] else [];
    var pb := if p(b) then [b] else [];
    assert [c][1..] == [];
    assert Filter([c], p) == pc;
    assert [b, c][1..] == [c];
    assert Filter([b, c], p) == pb + pc;
    assert [a, b, c][1..] == [b, c];
    assert (if p(a) then [a] else []) + (pb + pc) == (if p(a) then [a] else []) + pb + pc;
  }

  /** Filtering with a predicate every element satisfies changes nothing. */
  lemma {:induction false} FilterAll<T(!new)>(xs: seq<T>, p: T -> bool)
    requires forall k :: 0 <= k < |xs| ==> p(xs[k])
    ensures Filter(xs, p) == xs
    decreases |xs|
  {
    if |xs| > 0 {
      FilterAll(xs[1..], p);
    }
  }
}

=== FILE: similarity.dfy ===
/** The embedding-and-similarity core: per-axis normalisation of the 2-D
    embedding, distances from a reference creature turned into similarity
    scores, the similarity table sorted by score, and the colour labels of
    the scatter plot's "pop-out" mode.

    The UMAP projection is not modelled. `NormalizeComponents` takes its raw
    output; the `coords` of `GetSimilarities` and `PokemonTable` is the
    embedding after that per-axis normalisation, as the source reads it back
    from `get_df_with_umap`.
    The Euclidean norm is the parameter `dist`, so no square root is needed. */
module Similarity {
  import opened Results
  import opened Seqs
  import opened Scaling
  import opened Dataset

  /** One creature's position in the embedding. */
  datatype Point = Point(first: real, second: real)

  function Firsts(pts: seq<Point>): (xs: seq<real>)
    ensures |xs| == |pts| && forall i :: 0 <= i < |pts| ==> xs[i] == pts[i].first
  {
    seq(|pts|, i requires 0 <= i < |pts| => pts[i].first)
  }

  function Seconds(pts: seq<Point>): (ys: seq<real>)
    ensures |ys| == |pts| && forall i :: 0 <= i < |pts| ==> ys[i] == pts[i].second
  {
    seq(|pts|, i requires 0 <= i < |pts| => pts[i].second)
  }

  /** Both components of the embedding min-max scaled, each independently of
      the other. A constant axis is `Err(NotANumber)`. */
  function NormalizeComponents(pts: seq<Point>): (r: Result<seq<Point>>)
    ensures r.Err? <==> |pts| > 0 && (Constant(Firsts(pts)) || Constant(Seconds(pts)))
    ensures r.Ok? ==> |r.value| == |pts|
    ensures r.Ok? ==> Firsts(r.value) == MinMaxScale(Firsts(pts)).value
    ensures r.Ok? ==> Seconds(r.value) == MinMaxScale(Seconds(pts)).value
    ensures r.Ok? ==> forall i :: 0 <= i < |pts| ==>
      0.0 <= r.value[i].first <= 1.0 && 0.0 <= r.value[i].second <= 1.0
  {
    var a, b := MinMaxScale(Firsts(pts)), MinMaxScale(Seconds(pts));
    if a.Err? then Err(a.error)
    else if b.Err? then Err(b.error)
    else
      var q := seq(|pts|, i requires 0 <= i < |pts| => Point(a.value[i], b.value[i]));
      assert Firsts(q) == a.value && Seconds(q) == b.value;
      Ok(q)
  }

  /** Normalising keeps the order of the points along each axis. */
  lemma NormalizedAxesOrder(pts: seq<Point>)
    requires NormalizeComponents(pts).Ok?
    ensures var q := NormalizeComponents(pts).value;
      forall i, j :: 0 <= i < |pts| && 0 <= j < |pts| ==>
        (pts[i].first <= pts[j].first <==> q[i].first <= q[j].first) &&
        (pts[i].second <= pts[j].second <==> q[i].second <= q[j].second)
  {
    var q := NormalizeComponents(pts).value;
    var xs, ys := Firsts(pts), Seconds(pts);
    var u, v := Firsts(q), Seconds(q);
    MinMaxScaleOrder(xs);
    MinMaxScaleOrder(ys);
    forall i, j | 0 <= i < |pts| && 0 <= j < |pts|
      ensures pts[i].first <= pts[j].first <==> q[i].first <= q[j].first
      ensures pts[i].second <= pts[j].second <==> q[i].second <= q[j].second
    {
      assert xs[i] <= xs[j] <==> u[i] <= u[j];
      assert ys[i] <= ys[j] <==> v[i] <= v[j];
    }
  }

  /** On each normalised axis exactly the minimal points sit at 0 and
      exactly the maximal points at 1. */
  lemma NormalizedAxesExtremes(pts: seq<Point>)
    requires NormalizeComponents(pts).Ok?
    ensures var q := NormalizeComponents(pts).value;
      forall i :: 0 <= i < |pts| ==>
        (q[i].first == 0.0 <==> IsMin(Firsts(pts), i)) && (q[i].first == 1.0 <==> IsMax(Firsts(pts), i))
    ensures var q := NormalizeComponents(pts).value;
      forall i :: 0 <= i < |pts| ==>
        (q[i].second == 0.0 <==> IsMin(Seconds(pts), i)) && (q[i].second == 1.0 <==> IsMax(Seconds(pts), i))
  {
    var q := NormalizeComponents(pts).value;
    var xs, ys := Firsts(pts), Seconds(pts);
    var u, v := Firsts(q), Seconds(q);
    MinMaxScaleOrder(xs);
    MinMaxScaleOrder(ys);
    forall i | 0 <= i < |pts|
      ensures q[i].first == u[i] && q[i].second == v[i]
    {
    }
  }

  /** The distance of every point from `reference` (numpy's
      `np.linalg.norm(a - b, axis=1)` with the norm abstracted as `dist`). */
  function Distances(coords: seq<Point>, reference: Point, dist: (Point, Point) -> real): (d: seq<real>)
    ensures |d| == |coords|
    ensures forall i :: 0 <= i < |coords| ==> d[i] == dist(coords[i], reference)
  {
    seq(|coords|, i requires 0 <= i < |coords| => dist(coords[i], reference))
  }

  /** numpy's error for `.min()` of an empty array. */
  const EmptyReduction: Error := ValueError("zero-size array to reduction operation minimum which has no identity")

  /** `_vectorized_euclidean_distance`: the distances, min-max normalised
      when `normalize` is set. Normalising an empty distance array fails in
      `.min()`. */
  function VectorizedDistance(coords: seq<Point>, reference: Point, dist: (Point, Point) -> real,
                              normalize: bool): (r: Result<seq<real>>)
    ensures !normalize ==> r == Ok(Distances(coords, reference, dist))
    ensures normalize && |coords| == 0 ==> r == Err(EmptyReduction)
    ensures normalize && |coords| > 0 ==> r == MinMaxScale(Distances(coords, reference, dist))
    ensures normalize ==> (r.Err? <==> |coords| == 0 || Constant(Distances(coords, reference, dist)))
    ensures normalize && r.Ok? ==>
      |r.value| == |coords| && forall i :: 0 <= i < |coords| ==> 0.0 <= r.value[i] <= 1.0
    ensures normalize && r.Ok? ==> forall i :: 0 <= i < |coords| ==>
      (r.value[i] == 0.0 <==> IsMin(Distances(coords, reference, dist), i)) &&
      (r.value[i] == 1.0 <==> IsMax(Distances(coords, reference, dist), i))
  {
    var d := Distances(coords, reference, dist);
    if normalize then
      if |d| == 0 then Err(EmptyReduction)
      else if MinMaxScale(d).Ok? then
        MinMaxScaleOrder(d);
        MinMaxScale(d)
      else MinMaxScale(d)
    else Ok(d)
  }

  /** The similarity of every creature to the one called `name`: one minus
      its normalised embedding distance from that creature. */
  function GetSimilarities(table: seq<Pokemon>, coords: seq<Point>, name: string,
                           dist: (Point, Point) -> real): (r: Result<seq<real>>)
    requires |coords| == |table|
    ensures r == Err(NotFound) <==> forall i :: 0 <= i < |table| ==> table[i].name != name
    ensures r.Ok? ==> |r.value| == |table|
    ensures r.Ok? ==> forall i :: 0 <= i < |table| ==> 0.0 <= r.value[i] <= 1.0
  {
    match FirstWhere(table, (p: Pokemon) => p.name == name)
    case None => Err(NotFound)
    case Some(k) =>
      var d :- VectorizedDistance(coords, coords[k], dist, true);
      Ok(seq(|d|, i requires 0 <= i < |d| => 1.0 - d[i]))
  }

  /** Under unique names, the scores are computed from the distances to the
      one row called `name`. */
  lemma SimilaritiesFromReference(table: seq<Pokemon>, coords: seq<Point>, name: string,
                                  dist: (Point, Point) -> real, k: nat)
    requires |coords| == |table| && UniqueNames(table)
    requires k < |table| && table[k].name == name
    ensures var r := GetSimilarities(table, coords, name, dist);
      var n := MinMaxScale(Distances(coords, coords[k], dist));
      r.Err? == n.Err? &&
      (r.Ok? ==> forall i :: 0 <= i < |table| ==> r.value[i] == 1.0 - n.value[i])
  {
    var first := FirstWhere(table, (p: Pokemon) => p.name == name);
    assert first == Some(k);
  }

  /** Scores order creatures by closeness: a nearer creature never scores
      lower, and a creature at the same distance scores the same. */
  lemma SimilarityOrder(table: seq<Pokemon>, coords: seq<Point>, name: string,
                        dist: (Point, Point) -> real, k: nat)
    requires |coords| == |table| && UniqueNames(table)
    requires k < |table| && table[k].name == name
    requires GetSimilarities(table, coords, name, dist).Ok?
    ensures var s := GetSimilarities(table, coords, name, dist).value;
      forall i, j :: 0 <= i < |table| && 0 <= j < |table| ==>
        (dist(coords[i], coords[k]) <= dist(coords[j], coords[k]) <==> s[i] >= s[j])
  {
    SimilaritiesFromReference(table, coords, name, dist, k);
    var d := Distances(coords, coords[k], dist);
    var n := MinMaxScale(d).value;
    var s := GetSimilarities(table, coords, name, dist).value;
    MinMaxScaleOrder(d);
    forall i, j | 0 <= i < |table| && 0 <= j < |table|
      ensures d[i] <= d[j] <==> s[i] >= s[j]
    {
      assert s[i] == 1.0 - n[i] && s[j] == 1.0 - n[j];
      assert d[i] <= d[j] <==> n[i] <= n[j];
    }
  }

  /** A creature scores 1 exactly when no creature is nearer to the
      reference than it is. */
  lemma NearestScoresOne(table: seq<Pokemon>, coords: seq<Point>, name: string,
                         dist: (Point, Point) -> real, k: nat)
    requires |coords| == |table| && UniqueNames(table)
    requires k < |table| && table[k].name == name
    requires GetSimilarities(table, coords, name, dist).Ok?
    ensures var s := GetSimilarities(table, coords, name, dist).value;
      forall i :: 0 <= i < |table| ==> (s[i] == 1.0 <==> IsMin(Distances(coords, coords[k], dist), i))
  {
    SimilaritiesFromReference(table, coords, name, dist, k);
    var d := Distances(coords, coords[k], dist);
    var n := MinMaxScale(d).value;
    var s := GetSimilarities(table, coords, name, dist).value;
    MinMaxScaleOrder(d);
    forall i | 0 <= i < |table|
      ensures s[i] == 1.0 <==> n[i] == 0.0
    {
      assert s[i] == 1.0 - n[i];
    }
  }

  /** The reference creature scores exactly 1 when distances are
      non-negative and zero from a point to itself. */
  lemma ReferenceScoresOne(table: seq<Pokemon>, coords: seq<Point>, name: string,
                           dist: (Point, Point) -> real, k: nat)
    requires |coords| == |table| && UniqueNames(table)
    requires k < |table| && table[k].name == name
    requires forall p, q :: dist(p, q) >= 0.0
    requires forall p :: dist(p, p) == 0.0
    requires GetSimilarities(table, coords, name, dist).Ok?
    ensures GetSimilarities(table, coords, name, dist).value[k] == 1.0
  {
    NearestScoresOne(table, coords, name, dist, k);
  }

  /** With the reference present and a distance that is zero exactly on
      equal points, the scores fail (all NaN in the source) exactly when
      every creature sits on the reference's point. */
  lemma SimilarityFailsOnlyWhenCollapsed(table: seq<Pokemon>, coords: seq<Point>, name: string,
                                         dist: (Point, Point) -> real, k: nat)
    requires |coords| == |table| && UniqueNames(table)
    requires k < |table| && table[k].name == name
    requires forall p, q :: dist(p, q) == 0.0 <==> p == q
    ensures GetSimilarities(table, coords, name, dist).Err? <==>
      forall i :: 0 <= i < |table| ==> coords[i] == coords[k]
  {
    SimilaritiesFromReference(table, coords, name, dist, k);
    var d := Distances(coords, coords[k], dist);
    assert d[k] == 0.0 by {
      assert dist(coords[k], coords[k]) == 0.0;
    }
    if Constant(d) {
      forall i | 0 <= i < |table| ensures coords[i] == coords[k] {
        assert d[i] == d[0] == d[k];
        assert dist(coords[i], coords[k]) == 0.0;
      }
    }
    if forall i :: 0 <= i < |table| ==> coords[i] == coords[k] {
      forall i | 0 <= i < |table| ensures d[i] == d[0] {
        assert coords[i] == coords[0];
      }
    }
  }

  /** One row of the similarity table: `#`, name, both types, similarity. */
  datatype TableRow = TableRow(number: int, name: string, type1: string, type2: Option<string>,
                               similarity: real)

  predicate SortedBySimilarity(rows: seq<TableRow>) {
    forall i, j :: 0 <= i < j < |rows| ==> rows[i].similarity >= rows[j].similarity
  }

  function Insert(x: TableRow, rows: seq<TableRow>): (r: seq<TableRow>)
    requires SortedBySimilarity(rows)
    ensures SortedBySimilarity(r)
    ensures multiset(r) == multiset(rows) + multiset{x}
    ensures |r| == |rows| + 1 && (r[0] == x || (|rows| > 0 && r[0] == rows[0]))
    decreases |rows|
  {
    if |rows| == 0 || x.similarity >= rows[0].similarity then [x] + rows
    else
      var rest := Insert(x, rows[1..]);
      assert rows == [rows[0]] + rows[1..];
      assert rows[0].similarity >= rest[0].similarity;
      [rows[0]] + rest
  }

  /** `sort_values(by="similarity", ascending=False)`: a permutation in
      non-increasing similarity. The order among equal similarities is not
      specified, as pandas' default sort is not stable. */
  function SortBySimilarity(rows: seq<TableRow>): (r: seq<TableRow>)
    ensures SortedBySimilarity(r)
    ensures multiset(r) == multiset(rows)
    decreases |rows|
  {
    if |rows| == 0 then []
    else
      assert rows == [rows[0]] + rows[1..];
      Insert(rows[0], SortBySimilarity(rows[1..]))
  }

  /** The table rows before sorting: the five kept columns of each creature
      with its similarity. */
  function Project(table: seq<Pokemon>, sims: seq<real>): (r: seq<TableRow>)
    requires |sims| == |table|
    ensures |r| == |table|
    ensures forall i :: 0 <= i < |table| ==>
      Pokemon(r[i].number, r[i].name, r[i].type1, r[i].type2) == table[i] && r[i].similarity == sims[i]
  {
    seq(|table|, i requires 0 <= i < |table| =>
      TableRow(table[i].number, table[i].name, table[i].type1, table[i].type2, sims[i]))
  }

  /** The similarity table shown beside the scatter plot. */
  function PokemonTable(table: seq<Pokemon>, coords: seq<Point>, name: string,
                        dist: (Point, Point) -> real): (r: Result<seq<TableRow>>)
    requires |coords| == |table|
    ensures r.Err? <==> GetSimilarities(table, coords, name, dist).Err?
    ensures r.Ok? ==> SortedBySimilarity(r.value)
    ensures r.Ok? ==>
      multiset(r.value) == multiset(Project(table, GetSimilarities(table, coords, name, dist).value))
  {
    var sims :- GetSimilarities(table, coords, name, dist);
    Ok(SortBySimilarity(Project(table, sims)))
  }

  /** The table's first row has the top score 1, the reference's own score,
      so the reference can only share first place with creatures at the
      same distance from it. */
  lemma TableStartsWithTopScore(table: seq<Pokemon>, coords: seq<Point>, name: string,
                                dist: (Point, Point) -> real, k: nat)
    requires |coords| == |table| && UniqueNames(table)
    requires k < |table| && table[k].name == name
    requires forall p, q :: dist(p, q) >= 0.0
    requires forall p :: dist(p, p) == 0.0
    requires PokemonTable(table, coords, name, dist).Ok?
    ensures var t := PokemonTable(table, coords, name, dist).value;
      |t| == |table| && t[0].similarity == 1.0
  {
    var sims := GetSimilarities(table, coords, name, dist).value;
    ReferenceScoresOne(table, coords, name, dist, k);
    var rows := Project(table, sims);
    var t := PokemonTable(table, coords, name, dist).value;
    assert |t| == |rows| by {
      assert |multiset(t)| == |multiset(rows)|;
    }
    assert rows[k] in multiset(t);
    assert t[0] in multiset(rows);
    var m :| 0 <= m < |rows| && rows[m] == t[0];
    var n :| 0 <= n < |t| && t[n] == rows[k];
    assert t[0].similarity >= t[n].similarity;
  }

  /** The label each point is coloured by: its primary type in "type" mode;
      in "pop-out" mode the selected creature's name for the rows with the
      selected pokedex number and "Not " + that name for every other row. */
  function ColorLabels(table: seq<Pokemon>, colorBy: string, selected: int): (r: Result<seq<string>>)
    ensures colorBy == "type" ==>
      r.Ok? && |r.value| == |table| && forall i :: 0 <= i < |table| ==> r.value[i] == table[i].type1
    ensures colorBy == "pop-out" ==> (r.Ok? <==> exists i :: 0 <= i < |table| && table[i].number == selected)
    ensures colorBy == "pop-out" && r.Err? ==> r.error == IndexError
    ensures colorBy != "type" && colorBy != "pop-out" ==>
      r == Err(ValueError("color_by must be 'type' or 'pop-out', got " + colorBy))
  {
    if colorBy == "type" then
      Ok(seq(|table|, i requires 0 <= i < |table| => table[i].type1))
    else if colorBy == "pop-out" then
      match FirstWhere(table, (p: Pokemon) => p.number == selected)
      case None => Err(IndexError)
      case Some(k) =>
        var current := table[k].name;
        Ok(seq(|table|, i requires 0 <= i < |table| =>
          if table[i].number == selected then current else "Not " + current))
    else
      Err(ValueError("color_by must be 'type' or 'pop-out', got " + colorBy))
  }

  /** Pop-out mode splits the rows in two: a row carries the selected
      creature's name exactly when its pokedex number is the selected one,
      and every other row carries "Not " followed by that name. */
  lemma PopOutPartition(table: seq<Pokemon>, selected: int)
    requires ColorLabels(table, "pop-out", selected).Ok?
    ensures var labels := ColorLabels(table, "pop-out", selected).value;
      exists k :: 0 <= k < |table| && table[k].number == selected &&
        (forall j :: 0 <= j < k ==> table[j].number != selected) &&
        |labels| == |table| &&
        forall i :: 0 <= i < |table| ==>
          (labels[i] == table[k].name <==> table[i].number == selected) &&
          (labels[i] != table[k].name ==> labels[i] == "Not " + table[k].name)
  {
    var k := FirstWhere(table, (p: Pokemon) => p.number == selected).value;
    var labels := ColorLabels(table, "pop-out", selected).value;
    forall i | 0 <= i < |table|
      ensures labels[i] == table[k].name <==> table[i].number == selected
    {
      if table[i].number != selected {
        assert |labels[i]| == |table[k].name| + 4;
      }
    }
  }

  /** Selecting a creature by name and highlighting its pokedex number
      singles out exactly that creature when names and numbers are unique. */
  lemma PopOutOfSelectedName(table: seq<Pokemon>, name: string)
    requires UniqueNames(table) && UniqueNumbers(table)
    requires PokedexNumber(table, name).Ok?
    ensures var labels := ColorLabels(table, "pop-out", PokedexNumber(table, name).value);
      labels.Ok? && |labels.value| == |table| &&
      forall i :: 0 <= i < |table| ==>
        (labels.value[i] == name <==> table[i].name == name) &&
        (table[i].name != name ==> labels.value[i] == "Not " + name)
  {
    var n := PokedexNumber(table, name).value;
    var j :| 0 <= j < |table| && table[j].name == name && table[j].number == n;
    var k := FirstWhere(table, (p: Pokemon) => p.number == n).value;
    assert k == j;
    var labels := ColorLabels(table, "pop-out", n).value;
    forall i | 0 <= i < |table|
      ensures labels[i] == name <==> table[i].name == name
      ensures table[i].name != name ==> labels[i] == "Not " + name
    {
      assert table[i].number == n <==> i == j;
      assert table[i].name == name <==> i == j;
      if i != j {
        assert |labels[i]| == |name| + 4;
      }
    }
  }
}

=== FILE: strings.dfy ===
/** Python string operations used by the dashboard: substring search
    (`q in s`), `str.split(sep)` with its inverse `sep.join`, `str(n)` for a
    non-negative integer and `str.zfill(width)`. */
module Strings {
  import opened Results

  /** `q` occurs in `s` starting at index `i`. */
  predicate OccursAt(s: string, q: string, i: nat) {
    i + |q| <= |s| && s[i..i + |q|] == q
  }

  lemma OccursAtShift(s: string, q: string, i: nat)
    requires |s| > 0
    ensures OccursAt(s, q, i + 1) <==> OccursAt(s[1..], q, i)
  {
    if i + 1 + |q| <= |s| {
      assert s[i + 1..i + 1 + |q|] == s[1..][i..i + |q|];
    }
  }

  /** The first index at which `q` occurs in `s` (Python's `str.find`, with
      `None` for -1). */
  function Find(s: string, q: string): (r: Option<nat>)
    ensures r.Some? ==> OccursAt(s, q, r.value)
    ensures r.Some? ==> forall j: nat :: j < r.value ==> !OccursAt(s, q, j)
    ensures r.None? ==> forall j: nat :: !OccursAt(s, q, j)
    decreases |s|
  {
    if q <= s then
      assert OccursAt(s, q, 0);
      Some(0)
    else if |s| == 0 then None
    else
      assert !OccursAt(s, q, 0);
      assert forall j: nat :: OccursAt(s, q, j + 1) <==> OccursAt(s[1..], q, j) by {
        forall j: nat ensures OccursAt(s, q, j + 1) <==> OccursAt(s[1..], q, j) {
          OccursAtShift(s, q, j);
        }
      }
      match Find(s[1..], q)
      case None =>
        assert forall j: nat :: j > 0 ==> (OccursAt(s, q, j) <==> OccursAt(s[1..], q, j - 1));
        None
      case Some(i) =>
        assert forall j: nat :: 0 < j ==> (OccursAt(s, q, j) <==> OccursAt(s[1..], q, j - 1));
        Some(i + 1)
  }

  /** Python's `q in s`: `q` is a substring of `s` (the empty string is a
      substring of every string). */
  predicate Contains(s: string, q: string) {
    Find(s, q).Some?
  }

  /** Substring search succeeds exactly when the query occurs somewhere. */
  lemma ContainsIffOccurs(s: string, q: string)
    ensures Contains(s, q) <==> exists i: nat :: OccursAt(s, q, i)
  {
    if exists i: nat :: OccursAt(s, q, i) {
      var i: nat :| OccursAt(s, q, i);
      assert Find(s, q).Some?;
    }
  }

  /** For a one-character needle, substring search is membership. */
  lemma ContainsChar(s: string, c: char)
    ensures Contains(s, [c]) <==> c in s
  {
    if Contains(s, [c]) {
      var i := Find(s, [c]).value;
      assert s[i..i + 1] == [c];
      assert s[i] == c;
    }
    if c in s {
      var i :| 0 <= i < |s| && s[i] == c;
      assert s[i..i + 1] == [c];
      assert OccursAt(s, [c], i);
    }
  }

  /** `sep.join(pieces)`. */
  function Join(pieces: seq<string>, sep: string): string
    decreases |pieces|
  {
    if |pieces| == 0 then ""
    else if |pieces| == 1 then pieces[0]
    else pieces[0] + sep + Join(pieces[1..], sep)
  }

  /** Python's `s.split(sep)` for a non-empty separator: the text between
      successive left-most, non-overlapping occurrences of `sep`. */
  function Split(s: string, sep: string): (r: seq<string>)
    requires |sep| > 0
    ensures |r| >= 1
    ensures Join(r, sep) == s
    ensures forall k :: 0 <= k < |r| ==> !Contains(r[k], sep)
    ensures forall k, c :: 0 <= k < |r| && c in r[k] ==> c in s
    ensures r[0] <= s
    ensures |r| > 1 ==> OccursAt(s, sep, |r[0]|)
    decreases |s|
  {
    match Find(s, sep)
    case None => [s]
    case Some(i) =>
      var head, tail := s[..i], s[i + |sep|..];
      assert !Contains(head, sep) by {
        if Contains(head, sep) {
          var j := Find(head, sep).value;
          assert head[j..j + |sep|] == s[j..j + |sep|];
          assert OccursAt(s, sep, j);
        }
      }
      var rest := Split(tail, sep);
      assert s == head + sep + tail;
      [head] + rest
  }

  /** Splitting a string produced by joining pieces none of which contains
      the separator's first character gives the pieces back. */
  lemma {:induction false} SplitJoin(pieces: seq<string>, sep: string)
    requires |sep| > 0 && |pieces| > 0
    requires forall k :: 0 <= k < |pieces| ==> sep[0] !in pieces[k]
    ensures Split(Join(pieces, sep), sep) == pieces
    decreases |pieces|
  {
    var s := Join(pieces, sep);
    if |pieces| > 1 {
      var p := pieces[0];
      var tail := Join(pieces[1..], sep);
      assert s == p + sep + tail;
      assert OccursAt(s, sep, |p|) by {
        assert s[|p|..|p| + |sep|] == sep;
      }
      forall j: nat | j < |p|
        ensures !OccursAt(s, sep, j)
      {
        assert s[j] == p[j];
      }
      assert Find(s, sep) == Some(|p|);
      assert s[|p| + |sep|..] == tail;
      SplitJoin(pieces[1..], sep);
    }
  }

  function DigitChar(d: nat): (c: char)
    requires d < 10
    ensures '0' <= c <= '9'
  {
    "0123456789"[d]
  }

  predicate AllDigits(s: string) {
    forall k :: 0 <= k < |s| ==> '0' <= s[k] <= '9'
  }

  /** The number a string of decimal digits denotes; leading zeros allowed. */
  function DecimalValue(s: string): nat
    requires AllDigits(s)
    decreases |s|
  {
    if |s| == 0 then 0
    else DecimalValue(s[..|s| - 1]) * 10 + (s[|s| - 1] as int - '0' as int)
  }

  /** Python's `str(n)` for a non-negative integer. */
  function Digits(n: nat): (r: string)
    ensures |r| >= 1 && AllDigits(r)
    ensures DecimalValue(r) == n
    ensures |r| > 1 ==> r[0] != '0'
    decreases n
  {
    var last := [DigitChar(n % 10)];
    if n < 10 then last
    else
      var r := Digits(n / 10) + last;
      assert r[..|r| - 1] == Digits(n / 10);
      r
  }

  /** Python's `s.zfill(width)` for a string without a sign: left-pad with
      '0' up to `width` characters. */
  function ZFill(s: string, width: nat): (r: string)
    requires |s| == 0 || (s[0] != '-' && s[0] != '+')
    ensures |r| == if |s| >= width then |s| else width
    ensures r[|r| - |s|..] == s
    ensures forall k :: 0 <= k < |r| - |s| ==> r[k] == '0'
  {
    if |s| >= width then s else seq(width - |s|, _ => '0') + s
  }

  /** Leading zeros do not change the value of a digit string. */
  lemma {:induction false} LeadingZeros(zeros: string, s: string)
    requires forall k :: 0 <= k < |zeros| ==> zeros[k] == '0'
    requires AllDigits(s)
    ensures AllDigits(zeros + s) && DecimalValue(zeros + s) == DecimalValue(s)
    decreases |s|
  {
    if |s| == 0 {
      assert zeros + s == zeros;
      AllZeros(zeros);
    } else {
      var t := zeros + s;
      assert t[..|t| - 1] == zeros + s[..|s| - 1];
      LeadingZeros(zeros, s[..|s| - 1]);
    }
  }

  lemma {:induction false} AllZeros(zeros: string)
    requires forall k :: 0 <= k < |zeros| ==> zeros[k] == '0'
    ensures AllDigits(zeros) && DecimalValue(zeros) == 0
    decreases |zeros|
  {
    if |zeros| > 0 {
      AllZeros(zeros[..|zeros| - 1]);
    }
  }

  /** `str(n).zfill(width)` reads back as `n`. */
  lemma ZFillDigitsValue(n: nat, width: nat)
    ensures AllDigits(ZFill(Digits(n), width))
    ensures DecimalValue(ZFill(Digits(n), width)) == n
  {
    var s := Digits(n);
    var r := ZFill(s, width);
    if |s| < width {
      LeadingZeros(r[..|r| - |s|], s);
      assert r == r[..|r| - |s|] + s;
    }
  }
}
